=== FILE: README.md ===
# Post-fetch hooks for Django querysets, modelled in Dafny

`django-post-fetch-hook` lets a Django model declare hooks that transform fetched
data after the queryset materialises its rows and before it caches them. There are
four hook slots:
- `post_fetch_hook` for model instances;
- `post_fetch_values_hook` for `values()` dicts;
- `post_fetch_values_list_hook` for `values_list()` tuples;
- `post_fetch_values_list_flat_hook` for `values_list(flat=True)` scalars.

`PostFetchQuerySetMixin` overrides `_fetch_all`. The override does four things:
1. It derives a join plan from `query.select_related`.
2. It replaces every row by the output of the matching hook of the queryset's model.
3. It walks the join plan through the eagerly joined related instances, running each
   related instance's own `post_fetch_hook`.
4. It does all of this only when the result cache is empty. The prefetch step runs
   afterwards.

This project models that mechanism and the example application's three models.

Modules:
- `Entities` (`entities.dfy`): the instances, rows and plans.
  - Instances live in an explicit store `map<Id, Record>`.
  - A record holds its class name, its plain attributes and its relation slots. A
    relation slot holds `Option<Id>`.
  - This store is what lets the model tell "the same instance" from "an equal
    instance". That difference matters because a hook may return a different
    instance from the one it was given.
  - Rows are `Entity(id) | Dict(..) | Tuple(..) | Scalar(..)`.
  - A join plan is a nested, ordered dict: `Plan(seq<PlanEntry>)`.
- `Mixins` (`mixins.dfy`): `_get_select_related_fields`, `_post_fetch`,
  `_related_post_fetch` and `_fetch_all`, plus the identity defaults of
  `PostFetchModelMixin`. Hooks are function parameters:
  - an entity hook maps (store, id) to (store, returned id);
  - each class's callable `post_fetch_hook`, if it has one, comes from a
    `HookRegistry`.
- `TraversalProofs` (`traversal_proofs.dfy`): properties of the traversal and of the
  row loop.
  - The traversal is compared with an independent reference. `Trace` lists the
    related instances that are reached along plan edges, read off the store before
    any hook runs. `ApplyHooks` runs their hooks in that order.
  - For hooks that work in place, `RelatedPostFetch` equals that reference. Working in
    place means the hook returns its argument and changes only that instance's plain
    attributes. Every hook of the example application works in place.
- `FetchProofs` (`fetch_proofs.dfy`): fetch-once, the ordering of the prefetch step, and
  `_post_fetch` taken row by row.
- `MyApp` (`myapp.dfy`): `Parent`, `Object` and `Thing`, their relation fields and
  their hooks.
- `MyAppScenarios` (`myapp_scenarios.dfy`): the application's end-to-end behaviour
  restated as lemmas over concrete instances.

Three details of the code are easy to misread; the model follows the code:
- An instance row goes to the entity hook of the queryset's model (`self.model`), not
  to a hook looked up from the row's own class.
- At the top level, the join plan is walked below the instance that the hook returned.
  One level down, the slot receives the hook's result, but the walk continues below
  the instance the slot held before the hook ran.
- No row shape is rejected. Anything that is not a dict, a tuple or an instance goes
  to the flat hook.

## Model

| member | source | states |
|---|---|---|
| `Entities.Related` | post_fetch_hook/mixins.py:59-61 | reading a relation slot gives a stored instance, or `None` when the slot is missing, null or names no instance |
| `Entities.SetRelation` | post_fetch_hook/mixins.py:64 | writing a relation slot changes only that slot of that instance; every other instance, attribute and slot is kept |
| `Entities.SetRelationSame` | post_fetch_hook/mixins.py:64 | writing back the instance a slot already holds leaves the store unchanged |
| `Mixins.DefaultHooksAreIdentity` | post_fetch_hook/mixins.py:69-88 | the inherited hooks return every instance, dict, tuple and value unchanged |
| `Mixins.RelationPlan` | post_fetch_hook/mixins.py:41 | the one-level plan has exactly the relation fields as keys, each mapped to the empty plan |
| `Mixins.RelationPlanValid` | post_fetch_hook/mixins.py:41 | with unique field names, the one-level plan has no key twice, like the dict comprehension |
| `Mixins.GetSelectRelatedFields` | post_fetch_hook/mixins.py:36-42 | a dict setting is used verbatim; `True` gives exactly the relation fields with empty sub-plans; `False` gives the empty plan |
| `Mixins.FieldNames` | post_fetch_hook/mixins.py:47 | no contract of its own: `getattr(self, "_fields", ())`. `MyAppScenarios.ValuesFetchNamesFields` and `ValuesListFetchNamesFields` state what the dict and tuple hooks receive through it |
| `Mixins.FlatField` | post_fetch_hook/mixins.py:54 | no contract of its own: `getattr(self, "_fields", (None,))[0]`, defined only when that element exists (`HasFlatField`). `MyAppScenarios.FlatFetchNamesField` states what the flat hook receives through it |
| `Mixins.PostFetchRow` | post_fetch_hook/mixins.py:46-54 | no contract of its own: one pass of the loop. `FetchProofs.PostFetchRowByRow` ties it to every row of `_post_fetch`, `TraversalProofs.InPlaceRowKeepsLinks` and `IdentityPostFetch` state its effect, and `FetchProofs.SingleRowFetch` its use by `_fetch_all` |
| `Mixins.PostFetch` | post_fetch_hook/mixins.py:44-55 | the output has the length of the input; every dict, tuple and scalar row is replaced by its own hook's output on that row alone (`Replaces`); instance rows stay instance rows; without instance rows no instance changes |
| `Mixins.FillCache` | post_fetch_hook/mixins.py:29-32 | rows are read and transformed only when the cache is empty; a set cache is left exactly as it was; a filled cache holds exactly the rows `_post_fetch` returned, and the instances are as `_post_fetch` left them |
| `Mixins.ResolvePrefetch` | post_fetch_hook/mixins.py:33-34 | the prefetch step runs exactly when lookups are pending and not done, and then the instances are what `prefetch` returns for the current instances and the cached rows; it keeps the cache and marks the prefetch done |
| `Mixins.FetchAll` | post_fetch_hook/mixins.py:28-34 | afterwards the cache is always set; a cached queryset reads no rows; an empty cache is filled with `_post_fetch`'s output, not the raw rows, and with no prefetch pending the instances are as `_post_fetch` left them; a cached queryset with no pending prefetch is left exactly as it was, and one with a pending prefetch still runs it, on the cached rows; the lookups are kept and the prefetch is done afterwards exactly when it was done or lookups were pending; the events are one of: nothing, read-then-cache, read-then-cache-then-prefetch, prefetch only |
| `Mixins.ApplyRelatedHook` | post_fetch_hook/mixins.py:62-64 | no contract of its own: the related instance's hook, if any, and the `setattr` of its result. `TraversalProofs.NoHookStillDescends`, `RecursesIntoPreHookInstance` and `RelatedHookInPlace` state its effect |
| `Mixins.RelatedPostFetch` | post_fetch_hook/mixins.py:57-66 | no contract of its own: `_related_post_fetch` from the first plan entry. `TraversalProofs.TraversalIsTrace`, `TraversalFrame`, `TraceCovers`, `OneRelationStep` and `IdentityTraversal` state what it does |
| `Mixins.RelatedPostFetchFrom` | post_fetch_hook/mixins.py:58-66 | no contract of its own: the loop over plan entries from entry `i`. `TraversalProofs.TraversalIsTrace`, `NullRelationsSkipped`, `NoHookStillDescends` and `RecursesIntoPreHookInstance` state what it does |
| `TraversalProofs.TraversalIsTrace` | post_fetch_hook/mixins.py:57-66 | with in-place hooks, the traversal equals running the hooks of the instances reached along plan edges, in pre-order |
| `TraversalProofs.TraversalFrame` | post_fetch_hook/mixins.py:58-66 | with in-place hooks, no relation slot is rewritten, and every instance the plan does not reach is unchanged |
| `TraversalProofs.TraceBounded` | post_fetch_hook/mixins.py:58-66 | the traversal visits at most one instance per edge of the plan, so its depth and work are bounded by the plan |
| `TraversalProofs.TraceCovers` | post_fetch_hook/mixins.py:58-66 | every non-null relation the plan names is visited, and so is everything its nested plan reaches |
| `TraversalProofs.OneLevelPlanStopsAtRelated` | post_fetch_hook/mixins.py:65-66 | with plan `{f: {}}`, only the instance in slot `f` can change; the instances below it are untouched |
| `TraversalProofs.OneRelationStep` | post_fetch_hook/mixins.py:57-66 | with in-place hooks and a one-entry plan `{f: sub}` whose slot holds `y`, the walk is `y`'s hook followed by the walk of `sub` from `y` |
| `TraversalProofs.NullRelationsSkipped` | post_fetch_hook/mixins.py:59-61 | when every relation the plan names is null, the traversal changes nothing and runs no hook, whatever the hooks are |
| `TraversalProofs.NullEntrySkipped` | post_fetch_hook/mixins.py:59-61 | for any hooks, an entry whose relation is null on `x` when the walk reaches it is skipped: no hook runs, no slot is written and there is no descent |
| `TraversalProofs.EmptyPlanChangesNothing` | post_fetch_hook/mixins.py:65-66 | the empty plan changes nothing, so the non-empty guard only saves a call |
| `TraversalProofs.NoHookStillDescends` | post_fetch_hook/mixins.py:62-66 | a related instance without a hook keeps its slot value, and the traversal still goes down into it with the nested plan |
| `TraversalProofs.RecursesIntoPreHookInstance` | post_fetch_hook/mixins.py:64-66 | the slot receives the hook's result, but the walk continues below the instance the slot held before the hook |
| `TraversalProofs.IdentityTraversal` | post_fetch_hook/mixins.py:71-73 | with identity entity hooks, the traversal changes no instance |
| `TraversalProofs.IdentityPostFetch` | post_fetch_hook/mixins.py:69-88 | with the identity hooks, `_post_fetch` returns its rows and the store unchanged |
| `TraversalProofs.InPlacePostFetch` | post_fetch_hook/mixins.py:50-52 | with in-place hooks, every instance row comes back as the same instance, and no relation slot changes |
| `TraversalProofs.InPlaceRowKeepsLinks` | post_fetch_hook/mixins.py:50-52 | for one row with in-place hooks, an instance row comes back as itself and no relation slot changes |
| `FetchProofs.FetchTwiceIsFetchOnce` | post_fetch_hook/mixins.py:28-34 | a second `_fetch_all` reads no rows, runs no hook or prefetch, and leaves the queryset as the first call left it |
| `FetchProofs.EmptyResultRunsNoHook` | post_fetch_hook/mixins.py:29-32 | an empty result caches the empty list, and no instance changes |
| `FetchProofs.PrefetchSeesTransformedRows` | post_fetch_hook/mixins.py:31-34 | the prefetch step runs after the cache is assigned, and it receives the hooks' output rather than the raw rows |
| `FetchProofs.SingleRowFetch` | post_fetch_hook/mixins.py:28-32 | a one-row fetch caches exactly what that row's dispatch produced |
| `FetchProofs.SingleInstanceFetch` | post_fetch_hook/mixins.py:28-32 | a one-instance fetch whose hook keeps its instance caches that instance, with the store as the hook and then the related walk left it |
| `FetchProofs.PostFetchAppend` | post_fetch_hook/mixins.py:44-55 | transforming `a + b` is transforming `a`, then transforming `b` on the instances `a`'s hooks left |
| `FetchProofs.PostFetchRowByRow` | post_fetch_hook/mixins.py:44-55 | row `i` of the result is what row `i`'s own dispatch (entity hook, then the related walk, for an instance) returns on the instances rows `0..i` left, and that dispatch leaves the instances for row `i + 1` |
| `MyApp.ParentHook` | example_project/myapp/models.py:17-20 | sets `title` to None and returns the same instance; `obj` and every other instance are untouched |
| `MyApp.ObjectHook` | example_project/myapp/models.py:27-30 | sets `identifier` to None and returns the same instance; nothing else changes |
| `MyApp.ThingHook` | example_project/myapp/models.py:38-43 | sets `name`, `age` and `email` to None and returns the same instance; nothing else changes |
| `MyApp.ThingValuesHook` | example_project/myapp/models.py:45-47 | zip semantics: the k-th key is paired with the k-th field name, truncated to the shorter of the two |
| `MyApp.Names` | example_project/myapp/models.py:50-51 | the returned tuple is the field names, one per field, in order |
| `MyApp.RegistryInPlace` | example_project/myapp/models.py:17-43 | all three entity hooks work in place, so the frame lemmas apply to the application |
| `MyApp.ParentDerivesObjPlan` | example_project/myapp/models.py:13-15 | `select_related()` on `Parent` derives the plan `{"obj": {}}` and nothing else |
| `MyApp.ObjectAndThingPlans` | example_project/myapp/models.py:23-36 | `select_related()` on `Object` derives `{"thing": {}}`; on `Thing` it derives the empty plan |
| `MyApp.ValuesHookNamesEachKey` | example_project/myapp/models.py:46-47 | when the dict's keys are the `_fields` in order, every key is kept and maps to its own name |
| `MyApp.ThingValueHooksIgnoreValues` | example_project/myapp/models.py:49-55 | the values-list and flat hooks give the same output whatever values were fetched |
| `MyApp.ThingValuesListHook` | example_project/myapp/models.py:50-51 | the result is the field names, one per field, in order, as values |
| `MyApp.ThingFlatHook` | example_project/myapp/models.py:54-55 | no contract of its own: the field name as a value. `MyApp.ThingValueHooksIgnoreValues` and `MyAppScenarios.FlatFetchNamesField` state what it returns |
| `MyApp.Registry` | post_fetch_hook/mixins.py:62-63 | no contract of its own: the `post_fetch_hook` that `getattr` finds callable on each class of the application. `MyApp.RegistryInPlace` states that every hook it yields works in place |
| `MyAppScenarios.ThingHookRedacts` | example_project/myapp/models.py:39-43 | the `Thing` hook leaves exactly `name`, `age` and `email`, all None |
| `MyAppScenarios.PlainFetchRedactsThing` | tests/test_models.py:11-25 | a plain fetch of a saved thing caches the same instance, with `name`, `age` and `email` None |
| `MyAppScenarios.AllFetchRedactsEveryThing` | tests/test_models.py:109-116 | `list(Thing.objects.all())` over two saved things caches both, in order, and both have `name`, `age` and `email` None |
| `MyAppScenarios.ValuesFetchNamesFields` | tests/test_models.py:28-41 | `values("name", "age")` yields `{"name": "name", "age": "age"}` for any stored values |
| `MyAppScenarios.ValuesListFetchNamesFields` | tests/test_models.py:44-57 | `values_list("name", "age")` yields `("name", "age")` for any stored values |
| `MyAppScenarios.FlatFetchNamesField` | tests/test_models.py:60-72 | `values_list("name", flat=True)` yields `"name"` for any stored value |
| `MyAppScenarios.SelectRelatedRedactsJoinedThing` | tests/test_models.py:119-132 | `select_related("thing")` redacts both the object and its joined thing, and keeps the link |
| `MyAppScenarios.SelectRelatedAllStopsAtFirstLevel` | tests/test_models.py:135-154 | `select_related()` on a parent redacts the parent and its object, and leaves the thing below as stored |
| `MyAppScenarios.SelectRelatedNestedRedactsAll` | tests/test_models.py:157-174 | `select_related("obj__thing")` redacts all three instances |
| `MyAppScenarios.ObjThingTraversalRedacts` | post_fetch_hook/mixins.py:57-66 | after the parent's hook, walking `obj__thing` redacts the object's `identifier` and the thing's fields, and leaves the parent as its own hook left it |
| `MyAppScenarios.SelectRelatedNullRelation` | tests/test_models.py:177-185 | with `obj=None`, the title is redacted and `obj` stays None |
| `MyAppScenarios.ReplacementDetachesNestedHooks` | post_fetch_hook/mixins.py:62-66 | if a hook returns a replacement instance, the parent's slot gets the replacement, and the nested hooks reach only the detached original |
| `MyAppScenarios.DetachedWalkRedactsOldThing` | post_fetch_hook/mixins.py:64-66 | the nested walk below the replaced object visits the original `thing`, and leaves the replacement and its fresh thing unredacted |

## Left out

- SQL generation, the database and `_iterable_class`: not modelled. The rows and
  instances that iterating the queryset yields are a parameter (`RawResult`).
- `_prefetch_related_objects`: an opaque function parameter. It sees the cached rows
  and may change instances in ways the model does not describe. The model also
  records that it marks the prefetch done, which is what Django's implementation does.
- Django's lazy follow-up queries: a relation that is not joined, or a prefetched
  collection, is fetched and transformed by a separate queryset. These are not
  modelled. This covers tests/test_models.py:151-154 and the prefetch tests at
  tests/test_models.py:188-250. `SelectRelatedAllStopsAtFirstLevel` shows only that
  this path leaves the thing untouched.
- Which relations Django actually joins: the plan derived from `select_related(True)`
  lists every relation field. Django's own `select_related()` with no arguments
  follows only non-null foreign keys, so `Parent.obj` (`null=True`) is not joined and
  is loaded by `getattr` with a query of its own. The store abstraction hides that
  read. The model states the plan `_get_select_related_fields` derives, not the SQL joins.
- Hook exceptions: not modelled. Hooks are total functions. So the rule that a
  failing hook aborts the fetch, with nothing cached, is not modelled either.
- Ill-typed hook results: not modelled. A hook cannot return `None` or a row of
  another shape, because hook results are typed.
- `isinstance`, `getattr` and `callable` probing: replaced by the `Row` tags and by an
  `Option` of a hook per class.
- Plan keys that name a plain attribute instead of a relation: treated as missing.
  `Related` reads relation slots only.
- `_fields`: modelled as either absent or a tuple of names. Django's `None` value for
  plain instance querysets is not modelled, because instance rows never read it.
- The `IndexError` for a scalar row when `_fields == ()`: excluded by a precondition
  (`HasFlatField`).
- Thread safety of the result cache: not modelled. The code has none, and the model
  is single-threaded.
- `TraversalProofs.TraversalIsTrace`: proved only for hooks that work in place. A hook
  that rewrites relations or returns another instance can change what the traversal
  reaches. For such hooks, only the one-step lemmas hold (`NoHookStillDescends`,
  `RecursesIntoPreHookInstance`, `NullEntrySkipped`, `NullRelationsSkipped`).
- `TraversalProofs.TraversalFrame`: proved only for hooks that work in place, for the
  same reason.
- `TraversalProofs.OneLevelPlanStopsAtRelated`: proved only for hooks that work in
  place, for the same reason.
- `TraversalProofs.InPlacePostFetch`: proved only for hooks that work in place, and
  only for instance rows that name stored instances.
- post_fetch_hook/models.py is not part of this model. `PostFetchModel` is taken to be
  a Django model with `PostFetchModelMixin`, whose manager uses
  `PostFetchQuerySetMixin`.
- tests/django/urls.py, example_project/myapp/apps.py and post_fetch_hook/typing.py:
  not modelled. They hold bootstrapping, app configuration and re-exports only.

=== FILE: entities.dfy ===
/**
 Materialised model instances, result rows and join plans.

 Instances are kept in an explicit store from ids to records, so that "the same
 instance" and "an equal instance" can be told apart: a hook may mutate the
 instance it is given or hand back a different one, and relation slots hold ids.
 */
module Entities {
  import opened Wrappers

  type Id = nat

  /** The name of a model class, e.g. "Parent". */
  type ModelName = string

  /** A plain field value; `Null` is Python's `None`. */
  datatype Value = Null | Str(text: string) | Int(n: int)

  /** One model instance: its class, its plain attributes and its forward relation slots. */
  datatype Record = Record(model: ModelName, attrs: map<string, Value>, rels: map<string, Option<Id>>)

  /** Every materialised instance, by id. */
  type Store = map<Id, Record>

  /** A Python dict of field values, in insertion order. */
  type Mapping = seq<(string, Value)>

  /** The four row shapes a result set can hold. */
  datatype Row =
    | Entity(id: Id)              // a model instance (`isinstance(row, Model)`)
    | Dict(mapping: Mapping)      // a `values()` row
    | Tuple(values: seq<Value>)   // a `values_list()` row
    | Scalar(value: Value)        // a `values_list(flat=True)` row

  /**
   A join plan: the nested `select_related` dict, relation name to nested plan,
   kept in the dict's iteration order.
   */
  datatype Plan = Plan(entries: seq<PlanEntry>)
  datatype PlanEntry = PlanEntry(field: string, sub: Plan)

  /** The plan `{}`. */
  const EmptyPlan: Plan := Plan([])

  /** The relation names at the top level of a plan. */
  function Keys(p: Plan): set<string> {
    set e | e in p.entries :: e.field
  }

  /** A plan is a well-formed nested dict: no key twice at any level. */
  predicate ValidPlan(p: Plan)
    decreases p
  {
    && (forall i, j :: 0 <= i < j < |p.entries| ==> p.entries[i].field != p.entries[j].field)
    && (forall i :: 0 <= i < |p.entries| ==> ValidPlan(p.entries[i].sub))
  }

  /**
   `getattr(model, field, None)` on a relation slot of instance `x`: the related
   instance, or `None` when the slot is absent, holds null, or names no instance.
   */
  function Related(s: Store, x: Id, f: string): (r: Option<Id>)
    ensures r.Some? ==> r.value in s && x in s && f in s[x].rels && s[x].rels[f] == r
    ensures r.None? && x in s && f in s[x].rels && s[x].rels[f].Some? ==> s[x].rels[f].value !in s
  {
    if x in s && f in s[x].rels && s[x].rels[f].Some? && s[x].rels[f].value in s
    then s[x].rels[f]
    else None
  }

  /** `setattr(model, field, y)` on a relation slot of instance `x`. */
  function SetRelation(s: Store, x: Id, f: string, y: Id): (t: Store)
    ensures t.Keys == s.Keys
    ensures forall z :: z in s && z != x ==> t[z] == s[z]
    ensures x in s ==> t[x].model == s[x].model && t[x].attrs == s[x].attrs
    ensures x in s ==> f in t[x].rels && t[x].rels[f] == Some(y)
    ensures x in s ==> forall g :: g != f ==> (g in t[x].rels <==> g in s[x].rels)
    ensures x in s ==> forall g :: g in s[x].rels && g != f ==> t[x].rels[g] == s[x].rels[g]
  {
    if x in s then s[x := s[x].(rels := s[x].rels[f := Some(y)])] else s
  }

  /** Writing back the instance a slot already holds changes nothing. */
  lemma SetRelationSame(s: Store, x: Id, f: string, y: Id)
    requires Related(s, x, f) == Some(y)
    ensures SetRelation(s, x, f, y) == s
  {
    assert s[x].rels[f := Some(y)] == s[x].rels;
    assert s[x].(rels := s[x].rels) == s[x];
  }
}

=== FILE: fetch_proofs.dfy ===
/** Properties of `_fetch_all`, the fetch-once wrapper around the result cache. */
module FetchProofs {
  import opened Wrappers
  import opened Entities
  import opened Mixins

  /**
   Fetch once: a second `_fetch_all` reads no rows, runs no hook and no
   prefetch, and leaves the queryset as the first call left it, whatever the
   data store would yield the second time.
   */
  lemma FetchTwiceIsFetchOnce(q: QuerySetState, qs: QuerySet, registry: HookRegistry,
                              raw1: RawResult, raw2: RawResult, prefetch: PrefetchStep)
    requires q.resultCache.None? ==> ScalarRowsHaveField(raw1.rows, qs.fields)
    ensures var first := FetchAll(q, qs, registry, raw1, prefetch);
            FetchAll(first.state, qs, registry, raw2, prefetch) == FetchOutcome(first.state, [])
  {
  }

  /** An empty result: the cache becomes the empty list and no hook changes any instance. */
  lemma EmptyResultRunsNoHook(q: QuerySetState, qs: QuerySet, registry: HookRegistry,
                              raw: RawResult, prefetch: PrefetchStep)
    requires q.resultCache.None?
    requires raw.rows == []
    requires !q.prefetchLookups
    ensures FetchAll(q, qs, registry, raw, prefetch)
         == FetchOutcome(q.(resultCache := Some([]), store := q.store + raw.store), [RowsRead, CacheAssigned])
  {
  }

  /**
   The prefetch step runs after the cache is assigned and is handed the rows
   the hooks produced, not the raw ones.
   */
  lemma PrefetchSeesTransformedRows(q: QuerySetState, qs: QuerySet, registry: HookRegistry,
                                    raw: RawResult, prefetch: PrefetchStep)
    requires q.resultCache.None?
    requires ScalarRowsHaveField(raw.rows, qs.fields)
    requires q.prefetchLookups && !q.prefetchDone
    ensures var fetched := PostFetch(q.store + raw.store, raw.rows,
                                     GetSelectRelatedFields(qs.selectRelated, qs.model.fields), qs, registry);
            var o := FetchAll(q, qs, registry, raw, prefetch);
            && o.events == [RowsRead, CacheAssigned, PrefetchRun]
            && o.state.resultCache == Some(fetched.rows)
            && o.state.store == prefetch(fetched.store, fetched.rows)
            && o.state.prefetchDone
  {
  }

  /**
   A one-row result with no prefetch pending: the cache holds what the row's
   hook dispatch produced, and the instances are as that dispatch left them.
   */
  lemma {:induction false} SingleRowFetch(q: QuerySetState, qs: QuerySet, registry: HookRegistry,
                                          raw: RawResult, prefetch: PrefetchStep)
    requires q.resultCache.None? && !q.prefetchLookups
    requires |raw.rows| == 1
    requires ScalarRowsHaveField(raw.rows, qs.fields)
    ensures var r := PostFetchRow(q.store + raw.store, raw.rows[0],
                                  GetSelectRelatedFields(qs.selectRelated, qs.model.fields), qs, registry);
            FetchAll(q, qs, registry, raw, prefetch).state == q.(resultCache := Some([r.row]), store := r.store)
  {
    var s := q.store + raw.store;
    var plan := GetSelectRelatedFields(qs.selectRelated, qs.model.fields);
    var r := PostFetchRow(s, raw.rows[0], plan, qs, registry);
    assert raw.rows[1..] == [];
    assert PostFetch(r.store, raw.rows[1..], plan, qs, registry) == Fetched(r.store, []);
    assert PostFetch(s, raw.rows, plan, qs, registry) == Fetched(r.store, [r.row]);
  }

  /**
   A one-instance result whose entity hook returns its argument: the cache holds
   that instance, and the instances are as the hook and then the traversal left them.
   */
  lemma SingleInstanceFetch(q: QuerySetState, qs: QuerySet, registry: HookRegistry,
                            raw: RawResult, prefetch: PrefetchStep, x: Id)
    requires q.resultCache.None? && !q.prefetchLookups
    requires raw.rows == [Entity(x)]
    requires qs.model.hooks.entity(q.store + raw.store, x).result == x
    ensures FetchAll(q, qs, registry, raw, prefetch).state
         == q.(resultCache := Some([Entity(x)]),
               store := RelatedPostFetch(qs.model.hooks.entity(q.store + raw.store, x).store, x,
                                         GetSelectRelatedFields(qs.selectRelated, qs.model.fields), registry))
  {
    SingleRowFetch(q, qs, registry, raw, prefetch);
  }

  // ------------------------------------------------------ _post_fetch row by row

  lemma ConsAppend<T>(x: T, l: seq<T>, r: seq<T>)
    ensures [x] + (l + r) == ([x] + l) + r
  {
  }

  lemma ScalarRowsSplit(a: seq<Row>, b: seq<Row>, fields: Option<seq<string>>)
    requires ScalarRowsHaveField(a + b, fields)
    ensures ScalarRowsHaveField(a, fields) && ScalarRowsHaveField(b, fields)
    ensures a != [] ==> ScalarRowsHaveField(a[1..] + b, fields)
  {
    assert forall r :: r in a ==> r in a + b;
    assert forall r :: r in b ==> r in a + b;
    if a != [] {
      assert a[1..] + b == (a + b)[1..];
    }
  }

  /** Transforming `a + b` is transforming `a`, then `b` on the instances `a`'s hooks left. */
  lemma {:induction false} PostFetchAppend(s: Store, a: seq<Row>, b: seq<Row>, plan: Plan, qs: QuerySet,
                                           registry: HookRegistry)
    requires ScalarRowsHaveField(a + b, qs.fields)
    ensures ScalarRowsHaveField(a, qs.fields) && ScalarRowsHaveField(b, qs.fields)
    ensures var left := PostFetch(s, a, plan, qs, registry);
            var right := PostFetch(left.store, b, plan, qs, registry);
            var whole := PostFetch(s, a + b, plan, qs, registry);
            whole.store == right.store && whole.rows == left.rows + right.rows
    decreases |a|
  {
    ScalarRowsSplit(a, b, qs.fields);
    if a == [] {
      assert a + b == b;
    } else {
      var head := PostFetchRow(s, a[0], plan, qs, registry);
      var ab := a + b;
      assert ab[0] == a[0];
      assert ab[1..] == a[1..] + b;
      PostFetchAppend(head.store, a[1..], b, plan, qs, registry);
      var left' := PostFetch(head.store, a[1..], plan, qs, registry);
      var right := PostFetch(left'.store, b, plan, qs, registry);
      var rest := PostFetch(head.store, ab[1..], plan, qs, registry);
      assert rest.store == right.store && rest.rows == left'.rows + right.rows;
      var whole := PostFetch(s, ab, plan, qs, registry);
      assert whole.store == rest.store && whole.rows == [head.row] + rest.rows;
      var left := PostFetch(s, a, plan, qs, registry);
      assert left.store == left'.store && left.rows == [head.row] + left'.rows;
      ConsAppend(head.row, left'.rows, right.rows);
    }
  }

  /**
   Row `i` of `_post_fetch`'s result is what row `i`'s own dispatch returns on the
   instances that rows `0..i` left, and that dispatch is what leaves the
   instances for row `i + 1`. In particular every instance row goes through the
   entity hook and the related walk, not only the first.
   */
  lemma PostFetchRowByRow(s: Store, rows: seq<Row>, plan: Plan, qs: QuerySet, registry: HookRegistry, i: nat)
    requires ScalarRowsHaveField(rows, qs.fields)
    requires i < |rows|
    ensures ScalarRowsHaveField(rows[..i], qs.fields) && ScalarRowsHaveField(rows[..i + 1], qs.fields)
    ensures var before := PostFetch(s, rows[..i], plan, qs, registry).store;
            var step := PostFetchRow(before, rows[i], plan, qs, registry);
            && PostFetch(s, rows, plan, qs, registry).rows[i] == step.row
            && PostFetch(s, rows[..i + 1], plan, qs, registry).store == step.store
  {
    assert rows == rows[..i] + rows[i..];
    assert rows[..i + 1] == rows[..i] + [rows[i]];
    assert rows[i..][0] == rows[i];
    PostFetchAppend(s, rows[..i], rows[i..], plan, qs, registry);
    PostFetchAppend(s, rows[..i], [rows[i]], plan, qs, registry);
    var left := PostFetch(s, rows[..i], plan, qs, registry);
    var step := PostFetchRow(left.store, rows[i], plan, qs, registry);
    assert [rows[i]][1..] == [];
    assert PostFetch(step.store, [rows[i]][1..], plan, qs, registry) == Fetched(step.store, []);
    assert PostFetch(left.store, [rows[i]], plan, qs, registry) == Fetched(step.store, [step.row]);
    var right := PostFetch(left.store, rows[i..], plan, qs, registry);
    assert right.rows[0] == step.row;
    assert (left.rows + right.rows)[i] == right.rows[0];
  }
}

=== FILE: mixins.dfy ===
/**
 The post-fetch interception of a queryset: join-plan derivation, per-row hook
 dispatch, the recursive traversal of eagerly joined relations, and the
 fetch-once wrapper around the result cache; plus the identity hooks that a
 model inherits when it declares none of its own.
 */
module Mixins {
  import opened Wrappers
  import opened Entities

  // ---------------------------------------------------------------- hook slots

  /** What an entity hook leaves behind: the instances after it ran, and the instance it returned. */
  datatype HookOutcome = HookOutcome(store: Store, result: Id)

  /** `post_fetch_hook(model) -> model`; it may mutate any instance and return any instance. */
  type EntityHook = (Store, Id) -> HookOutcome
  /** `post_fetch_values_hook(values, fields) -> dict`. */
  type ValuesHook = (Mapping, seq<string>) -> Mapping
  /** `post_fetch_values_list_hook(values, fields) -> tuple`. */
  type ValuesListHook = (seq<Value>, seq<string>) -> seq<Value>
  /** `post_fetch_values_list_flat_hook(value, field) -> value`; the field name may be `None`. */
  type FlatHook = (Value, Option<string>) -> Value

  /** The four hook slots of one model class. */
  datatype HookSet = HookSet(entity: EntityHook, values: ValuesHook, valuesList: ValuesListHook, flat: FlatHook)

  /**
   For each model class, its callable `post_fetch_hook`, if it has one
   (the `getattr` / `callable` probe on a related instance).
   */
  type HookRegistry = ModelName -> Option<EntityHook>

  // ------------------------------------------------------ PostFetchModelMixin

  function DefaultEntityHook(s: Store, x: Id): HookOutcome { HookOutcome(s, x) }
  function DefaultValuesHook(values: Mapping, fields: seq<string>): Mapping { values }
  function DefaultValuesListHook(values: seq<Value>, fields: seq<string>): seq<Value> { values }
  function DefaultFlatHook(value: Value, field: Option<string>): Value { value }

  /** The hooks a model inherits from `PostFetchModelMixin`. */
  const DefaultHooks: HookSet :=
    HookSet(DefaultEntityHook, DefaultValuesHook, DefaultValuesListHook, DefaultFlatHook)

  /** A hook set that returns every row, value and instance it is given, and changes no instance. */
  ghost predicate IdentityHooks(h: HookSet) {
    && (forall s, x :: h.entity(s, x) == HookOutcome(s, x))
    && (forall m, fs :: h.values(m, fs) == m)
    && (forall t, fs :: h.valuesList(t, fs) == t)
    && (forall v, f :: h.flat(v, f) == v)
  }

  /** Every class's entity hook, where there is one, is the identity. */
  ghost predicate IdentityRegistry(registry: HookRegistry) {
    forall m :: registry(m).Some? ==> forall s, x :: registry(m).value(s, x) == HookOutcome(s, x)
  }

  lemma DefaultHooksAreIdentity()
    ensures IdentityHooks(DefaultHooks)
  {
  }

  /**
   A hook run on instance `y` of `s` worked in place: it returned `y` itself,
   changed only `y`'s plain attributes, and created or dropped no instance.
   */
  ghost predicate InPlaceOutcome(s: Store, y: Id, o: HookOutcome)
    requires y in s
  {
    && o.result == y
    && o.store.Keys == s.Keys
    && o.store[y].model == s[y].model
    && o.store[y].rels == s[y].rels
    && (forall z :: z in s && z != y ==> o.store[z] == s[z])
  }

  /** An entity hook that always works in place. */
  ghost predicate InPlace(h: EntityHook) {
    forall s: Store, y: Id {:trigger h(s, y)} :: y in s ==> InPlaceOutcome(s, y, h(s, y))
  }

  /** Every class's entity hook, where there is one, works in place. */
  ghost predicate AllInPlace(registry: HookRegistry) {
    forall m :: registry(m).Some? ==> InPlace(registry(m).value)
  }

  // --------------------------------------------------- the queryset and model

  /** One entry of `Model._meta.fields`. */
  datatype FieldDecl = FieldDecl(name: string, isRelation: bool)

  /** A model class: its name, its concrete fields in declaration order, and its hooks. */
  datatype ModelClass = ModelClass(name: ModelName, fields: seq<FieldDecl>, hooks: HookSet)

  /** `query.select_related`: a nested dict, or a flag (`True` means "every relation, one level"). */
  datatype SelectRelated = AsDict(plan: Plan) | AsBool(flag: bool)

  /**
   What a queryset knows about itself: its model, its `select_related` setting,
   and its `_fields` attribute (`None` when the attribute is absent).
   */
  datatype QuerySet = QuerySet(model: ModelClass, selectRelated: SelectRelated, fields: Option<seq<string>>)

  // ------------------------------------------------ _get_select_related_fields

  /** The names of the relation fields among `fields`. */
  function RelationNames(fields: seq<FieldDecl>): set<string> {
    set f | f in fields && f.isRelation :: f.name
  }

  /** `{field.name: {} for field in fields if field.is_relation}`. */
  function RelationPlan(fields: seq<FieldDecl>): (p: Plan)
    ensures Keys(p) == RelationNames(fields)
    ensures forall e :: e in p.entries ==> e.sub == EmptyPlan
    ensures |p.entries| <= |fields|
  {
    if fields == [] then EmptyPlan
    else
      var rest := RelationPlan(fields[1..]);
      assert RelationNames(fields) == (if fields[0].isRelation then {fields[0].name} else {}) + RelationNames(fields[1..]) by {
        assert forall f :: f in fields <==> f == fields[0] || f in fields[1..];
      }
      if fields[0].isRelation then Plan([PlanEntry(fields[0].name, EmptyPlan)] + rest.entries)
      else rest
  }

  /** With unique field names, the one-level plan is a well-formed dict. */
  lemma {:induction false} RelationPlanValid(fields: seq<FieldDecl>)
    requires forall i, j :: 0 <= i < j < |fields| ==> fields[i].name != fields[j].name
    ensures ValidPlan(RelationPlan(fields))
  {
    if fields != [] {
      RelationPlanValid(fields[1..]);
      var rest := RelationPlan(fields[1..]);
      if fields[0].isRelation {
        assert fields[0].name !in RelationNames(fields[1..]);
        assert fields[0].name !in Keys(rest);
        var p := RelationPlan(fields);
        assert p.entries == [PlanEntry(fields[0].name, EmptyPlan)] + rest.entries;
        forall i, j | 0 <= i < j < |p.entries|
          ensures p.entries[i].field != p.entries[j].field
        {
          if i == 0 {
            assert p.entries[j] == rest.entries[j - 1];
            assert p.entries[j].field in Keys(rest);
          } else {
            assert p.entries[i] == rest.entries[i - 1];
            assert p.entries[j] == rest.entries[j - 1];
          }
        }
        forall i | 0 <= i < |p.entries|
          ensures ValidPlan(p.entries[i].sub)
        {
          assert p.entries[i] in p.entries;
        }
      }
    }
  }

  /** `_get_select_related_fields`: the join plan of a queryset. */
  function GetSelectRelatedFields(setting: SelectRelated, fields: seq<FieldDecl>): (p: Plan)
    ensures setting.AsDict? ==> p == setting.plan
    ensures setting == AsBool(true) ==> Keys(p) == RelationNames(fields)
    ensures setting == AsBool(true) ==> forall e :: e in p.entries ==> e.sub == EmptyPlan
    ensures setting == AsBool(false) ==> p == EmptyPlan
  {
    match setting
    case AsDict(plan) => plan
    case AsBool(flag) => if flag then RelationPlan(fields) else EmptyPlan
  }

  // ------------------------------------------------------ _related_post_fetch

  /**
   One relation of the traversal, once the related instance `y` is known: run
   `y`'s own entity hook if its class has one, and store the hook's result in
   the slot `f` of `x`.
   */
  function ApplyRelatedHook(s: Store, x: Id, f: string, y: Id, registry: HookRegistry): Store
    requires y in s
  {
    match registry(s[y].model)
    case None => s
    case Some(hook) =>
      var o := hook(s, y);
      SetRelation(o.store, x, f, o.result)
  }

  /** `_related_post_fetch(x, plan)`: walk the join plan below instance `x`. */
  function RelatedPostFetch(s: Store, x: Id, plan: Plan, registry: HookRegistry): Store {
    RelatedPostFetchFrom(s, x, plan, 0, registry)
  }

  /**
   The traversal from the `i`-th entry of `plan` on. Null relations are skipped;
   the walk goes down only when the nested plan is non-empty, and it goes down
   into the instance the slot held BEFORE the hook ran, not into the hook's result.
   */
  function RelatedPostFetchFrom(s: Store, x: Id, plan: Plan, i: nat, registry: HookRegistry): Store
    requires i <= |plan.entries|
    decreases plan, |plan.entries| - i
  {
    if i == |plan.entries| then s
    else
      var e := plan.entries[i];
      var s' :=
        match Related(s, x, e.field)
        case None => s
        case Some(y) =>
          var hooked := ApplyRelatedHook(s, x, e.field, y, registry);
          if e.sub.entries != [] then RelatedPostFetchFrom(hooked, y, e.sub, 0, registry) else hooked;
      RelatedPostFetchFrom(s', x, plan, i + 1, registry)
  }

  // -------------------------------------------------------------- _post_fetch

  /** `getattr(self, "_fields", ())`: the field names handed to the dict and tuple hooks. */
  function FieldNames(fields: Option<seq<string>>): seq<string> {
    if fields.Some? then fields.value else []
  }

  /** `getattr(self, "_fields", (None,))[0]` exists. */
  predicate HasFlatField(fields: Option<seq<string>>) {
    fields.None? || |fields.value| > 0
  }

  /** `getattr(self, "_fields", (None,))[0]`: the field name handed to the flat hook. */
  function FlatField(fields: Option<seq<string>>): Option<string>
    requires HasFlatField(fields)
  {
    if fields.None? then None else Some(fields.value[0])
  }

  /** Every scalar row has a field name to go with it. */
  predicate ScalarRowsHaveField(rows: seq<Row>, fields: Option<seq<string>>) {
    forall r :: r in rows ==> r.Scalar? ==> HasFlatField(fields)
  }

  /** The result of transforming rows: the instances afterwards and the new rows. */
  datatype Fetched = Fetched(store: Store, rows: seq<Row>)

  /** The row that replaces `row`, and the instances after its hooks ran. */
  datatype RowOutcome = RowOutcome(store: Store, row: Row)

  /**
   One iteration of `_post_fetch`: dispatch on the row's shape to the matching
   hook of the queryset's model. An instance row goes to the entity hook, and the
   join plan is then walked below the instance the hook returned.
   */
  function PostFetchRow(s: Store, row: Row, plan: Plan, qs: QuerySet, registry: HookRegistry): RowOutcome
    requires row.Scalar? ==> HasFlatField(qs.fields)
  {
    var hooks := qs.model.hooks;
    match row
    case Dict(m) => RowOutcome(s, Dict(hooks.values(m, FieldNames(qs.fields))))
    case Tuple(t) => RowOutcome(s, Tuple(hooks.valuesList(t, FieldNames(qs.fields))))
    case Entity(x) =>
      var o := hooks.entity(s, x);
      RowOutcome(RelatedPostFetch(o.store, o.result, plan, registry), Entity(o.result))
    case Scalar(v) => RowOutcome(s, Scalar(hooks.flat(v, FlatField(qs.fields))))
  }

  /**
   `out` is what `_post_fetch` puts in place of `row`: an instance for an
   instance, and for the other shapes exactly the output of the matching hook.
   */
  ghost predicate Replaces(row: Row, out: Row, qs: QuerySet) {
    && (out.Entity? <==> row.Entity?)
    && (row.Dict? ==> out == Dict(qs.model.hooks.values(row.mapping, FieldNames(qs.fields))))
    && (row.Tuple? ==> out == Tuple(qs.model.hooks.valuesList(row.values, FieldNames(qs.fields))))
    && (row.Scalar? ==> HasFlatField(qs.fields) && out == Scalar(qs.model.hooks.flat(row.value, FlatField(qs.fields))))
  }

  /**
   `_post_fetch(rows, plan)`: every row replaced, in place and in order, by the
   output of its hook. Row `i` of the result depends on row `i` of the input
   alone (and, for instance rows, on the instances earlier rows' hooks left).
   */
  function PostFetch(s: Store, rows: seq<Row>, plan: Plan, qs: QuerySet, registry: HookRegistry): (r: Fetched)
    requires ScalarRowsHaveField(rows, qs.fields)
    ensures |r.rows| == |rows|
    ensures forall i :: 0 <= i < |rows| ==> Replaces(rows[i], r.rows[i], qs)
    ensures (forall i :: 0 <= i < |rows| ==> !rows[i].Entity?) ==> r.store == s
    decreases |rows|
  {
    if rows == [] then Fetched(s, [])
    else
      var head := PostFetchRow(s, rows[0], plan, qs, registry);
      var tail := PostFetch(head.store, rows[1..], plan, qs, registry);
      assert forall i :: 1 <= i < |rows| ==> rows[i] == rows[1..][i - 1];
      Fetched(tail.store, [head.row] + tail.rows)
  }

  // --------------------------------------------------------------- _fetch_all

  /** The queryset's mutable state: `_result_cache`, the instances, and the prefetch bookkeeping. */
  datatype QuerySetState = QuerySetState(
    resultCache: Option<seq<Row>>,
    store: Store,
    prefetchLookups: bool,   // `_prefetch_related_lookups` is non-empty
    prefetchDone: bool)      // `_prefetch_done`

  /** What iterating `_iterable_class(self)` yields: new instances and the raw rows. */
  datatype RawResult = RawResult(store: Store, rows: seq<Row>)

  /** `_prefetch_related_objects`, opaque: it sees the cached rows and may change instances. */
  type PrefetchStep = (Store, seq<Row>) -> Store

  /** The observable steps of one `_fetch_all` call, in order. */
  datatype Event = RowsRead | CacheAssigned | PrefetchRun

  datatype FetchOutcome = FetchOutcome(state: QuerySetState, events: seq<Event>)

  /**
   The first half of `_fetch_all`: only when the cache is empty, read the rows,
   transform them with `_post_fetch`, and cache what the hooks returned.
   */
  function FillCache(q: QuerySetState, qs: QuerySet, registry: HookRegistry, raw: RawResult): (o: FetchOutcome)
    requires q.resultCache.None? ==> ScalarRowsHaveField(raw.rows, qs.fields)
    ensures o.state.resultCache.Some?
    ensures q.resultCache.Some? ==> o == FetchOutcome(q, [])
    ensures q.resultCache.None? ==> o.events == [RowsRead, CacheAssigned]
    ensures q.resultCache.None? ==> |o.state.resultCache.value| == |raw.rows|
    ensures q.resultCache.None? ==>
      var fetched := PostFetch(q.store + raw.store, raw.rows,
                               GetSelectRelatedFields(qs.selectRelated, qs.model.fields), qs, registry);
      o.state.resultCache == Some(fetched.rows) && o.state.store == fetched.store
    ensures o.state.prefetchLookups == q.prefetchLookups && o.state.prefetchDone == q.prefetchDone
  {
    if q.resultCache.None? then
      var plan := GetSelectRelatedFields(qs.selectRelated, qs.model.fields);
      var fetched := PostFetch(q.store + raw.store, raw.rows, plan, qs, registry);
      FetchOutcome(q.(resultCache := Some(fetched.rows), store := fetched.store), [RowsRead, CacheAssigned])
    else
      FetchOutcome(q, [])
  }

  /**
   The second half of `_fetch_all`: run the prefetch step when lookups are
   pending and not yet done. It can only see a filled cache; it marks the
   prefetch done, as Django's does.
   */
  function ResolvePrefetch(o: FetchOutcome, prefetch: PrefetchStep): (r: FetchOutcome)
    requires o.state.resultCache.Some?
    ensures r.state.resultCache == o.state.resultCache
    ensures r.state.prefetchLookups == o.state.prefetchLookups
    ensures r.state.prefetchDone == (o.state.prefetchDone || o.state.prefetchLookups)
    ensures o.state.prefetchLookups && !o.state.prefetchDone ==> r.events == o.events + [PrefetchRun]
    ensures o.state.prefetchLookups && !o.state.prefetchDone ==>
      r.state.store == prefetch(o.state.store, o.state.resultCache.value)
    ensures !(o.state.prefetchLookups && !o.state.prefetchDone) ==> r == o
  {
    var q := o.state;
    if q.prefetchLookups && !q.prefetchDone then
      FetchOutcome(q.(store := prefetch(q.store, q.resultCache.value), prefetchDone := true), o.events + [PrefetchRun])
    else o
  }

  /** `_fetch_all`. */
  function FetchAll(q: QuerySetState, qs: QuerySet, registry: HookRegistry, raw: RawResult, prefetch: PrefetchStep): (o: FetchOutcome)
    requires q.resultCache.None? ==> ScalarRowsHaveField(raw.rows, qs.fields)
    ensures o.state.resultCache.Some?
    ensures q.resultCache.Some? ==> o.state.resultCache == q.resultCache && RowsRead !in o.events
    ensures q.resultCache.None? ==> |o.state.resultCache.value| == |raw.rows|
    ensures q.resultCache.None? ==>
      var fetched := PostFetch(q.store + raw.store, raw.rows,
                               GetSelectRelatedFields(qs.selectRelated, qs.model.fields), qs, registry);
      && o.state.resultCache == Some(fetched.rows)
      && (!(q.prefetchLookups && !q.prefetchDone) ==> o.state.store == fetched.store)
    ensures q.resultCache.Some? && q.prefetchLookups && !q.prefetchDone ==>
      o.state.store == prefetch(q.store, q.resultCache.value)
    ensures q.resultCache.Some? && !(q.prefetchLookups && !q.prefetchDone) ==> o == FetchOutcome(q, [])
    ensures o.state.prefetchLookups == q.prefetchLookups
    ensures o.state.prefetchDone == (q.prefetchDone || q.prefetchLookups)
    ensures PrefetchRun in o.events <==> q.prefetchLookups && !q.prefetchDone
    ensures o.events == [] || o.events == [RowsRead, CacheAssigned]
         || o.events == [RowsRead, CacheAssigned, PrefetchRun] || o.events == [PrefetchRun]
    ensures q.resultCache.None? <==> RowsRead in o.events
  {
    var filled := FillCache(q, qs, registry, raw);
    assert [] + [PrefetchRun] == [PrefetchRun];
    assert [RowsRead, CacheAssigned] + [PrefetchRun] == [RowsRead, CacheAssigned, PrefetchRun];
    ResolvePrefetch(filled, prefetch)
  }
}

=== FILE: myapp.dfy ===
/**
 The example application's models: `Parent` (nullable relation `obj` to
 `Object`, field `title`), `Object` (relation `thing` to `Thing`, field
 `identifier`) and `Thing` (fields `name`, `age`, `email`), with the hooks
 each one declares. Every other hook slot is the mixin's identity default.
 */
module MyApp {
  import opened Wrappers
  import opened Entities
  import opened Mixins

  // ------------------------------------------------------- shared vocabulary

  /** `after` is `before` with the attributes `names` set to None, and nothing else changed. */
  ghost predicate Cleared(before: Record, after: Record, names: set<string>) {
    && after.model == before.model
    && after.rels == before.rels
    && after.attrs.Keys == before.attrs.Keys + names
    && (forall a :: a in names ==> after.attrs[a] == Null)
    && (forall a :: a in before.attrs && a !in names ==> after.attrs[a] == before.attrs[a])
  }

  /** Assign None to the attributes `names` of instance `x`. */
  function ClearAttrs(s: Store, x: Id, names: set<string>): Store {
    if x in s then
      var r := s[x];
      s[x := r.(attrs := map a | a in r.attrs.Keys + names :: if a in names then Null else r.attrs[a])]
    else s
  }

  // ----------------------------------------------------------------- Parent

  const ParentFields: seq<FieldDecl> :=
    [FieldDecl("id", false), FieldDecl("obj", true), FieldDecl("title", false)]

  /** `Parent.post_fetch_hook`: sets `title` to None and returns the same instance. */
  function ParentHook(s: Store, x: Id): (o: HookOutcome)
    ensures o.result == x
    ensures x in s ==> InPlaceOutcome(s, x, o) && Cleared(s[x], o.store[x], {"title"})
    ensures x !in s ==> o.store == s
  {
    HookOutcome(ClearAttrs(s, x, {"title"}), x)
  }

  const ParentClass: ModelClass :=
    ModelClass("Parent", ParentFields, HookSet(ParentHook, DefaultValuesHook, DefaultValuesListHook, DefaultFlatHook))

  // ----------------------------------------------------------------- Object

  const ObjectFields: seq<FieldDecl> :=
    [FieldDecl("id", false), FieldDecl("thing", true), FieldDecl("identifier", false)]

  /** `Object.post_fetch_hook`: sets `identifier` to None and returns the same instance. */
  function ObjectHook(s: Store, x: Id): (o: HookOutcome)
    ensures o.result == x
    ensures x in s ==> InPlaceOutcome(s, x, o) && Cleared(s[x], o.store[x], {"identifier"})
    ensures x !in s ==> o.store == s
  {
    HookOutcome(ClearAttrs(s, x, {"identifier"}), x)
  }

  const ObjectClass: ModelClass :=
    ModelClass("Object", ObjectFields, HookSet(ObjectHook, DefaultValuesHook, DefaultValuesListHook, DefaultFlatHook))

  // ------------------------------------------------------------------ Thing

  const ThingFields: seq<FieldDecl> :=
    [FieldDecl("id", false), FieldDecl("name", false), FieldDecl("age", false), FieldDecl("email", false)]

  /** `Thing.post_fetch_hook`: sets `name`, `age` and `email` to None and returns the same instance. */
  function ThingHook(s: Store, x: Id): (o: HookOutcome)
    ensures o.result == x
    ensures x in s ==> InPlaceOutcome(s, x, o) && Cleared(s[x], o.store[x], {"name", "age", "email"})
    ensures x !in s ==> o.store == s
  {
    HookOutcome(ClearAttrs(s, x, {"name", "age", "email"}), x)
  }

  /**
   `Thing.post_fetch_values_hook`: `dict(zip(values, fields))`, the k-th key of
   the row paired with the k-th field name, as long as both last.
   */
  function ThingValuesHook(values: Mapping, fields: seq<string>): (r: Mapping)
    ensures |r| == if |values| < |fields| then |values| else |fields|
    ensures forall k :: 0 <= k < |r| ==> r[k] == (values[k].0, Str(fields[k]))
    decreases |values|
  {
    if values == [] || fields == [] then []
    else [(values[0].0, Str(fields[0]))] + ThingValuesHook(values[1..], fields[1..])
  }

  /** The field names as values: what `return fields` hands back as a tuple. */
  function Names(fields: seq<string>): (r: seq<Value>)
    ensures |r| == |fields|
    ensures forall k :: 0 <= k < |r| ==> r[k] == Str(fields[k])
  {
    if fields == [] then [] else [Str(fields[0])] + Names(fields[1..])
  }

  /** `Thing.post_fetch_values_list_hook`: the tuple of field names, whatever the values. */
  function ThingValuesListHook(values: seq<Value>, fields: seq<string>): (r: seq<Value>)
    ensures |r| == |fields|
    ensures forall k :: 0 <= k < |r| ==> r[k] == Str(fields[k])
  {
    Names(fields)
  }

  /** `Thing.post_fetch_values_list_flat_hook`: the field name, whatever the value. */
  function ThingFlatHook(value: Value, field: Option<string>): Value {
    match field
    case None => Null
    case Some(f) => Str(f)
  }

  const ThingClass: ModelClass :=
    ModelClass("Thing", ThingFields, HookSet(ThingHook, ThingValuesHook, ThingValuesListHook, ThingFlatHook))

  // --------------------------------------------------------------- registry

  /** The callable `post_fetch_hook` of each class of the application. */
  function Registry(m: ModelName): Option<EntityHook> {
    if m == ParentClass.name then Some(ParentHook)
    else if m == ObjectClass.name then Some(ObjectHook)
    else if m == ThingClass.name then Some(ThingHook)
    else None
  }

  // ----------------------------------------------------------------- lemmas

  /** All three entity hooks mutate their instance and return it. */
  lemma RegistryInPlace()
    ensures AllInPlace(Registry)
    ensures InPlace(ParentHook) && InPlace(ObjectHook) && InPlace(ThingHook)
  {
    assert InPlace(ParentHook) by {
      forall s: Store, y: Id | y in s ensures InPlaceOutcome(s, y, ParentHook(s, y)) { }
    }
    assert InPlace(ObjectHook) by {
      forall s: Store, y: Id | y in s ensures InPlaceOutcome(s, y, ObjectHook(s, y)) { }
    }
    assert InPlace(ThingHook) by {
      forall s: Store, y: Id | y in s ensures InPlaceOutcome(s, y, ThingHook(s, y)) { }
    }
  }

  /** `_get_select_related_fields` for `select_related()` on `Parent` derives the plan `{"obj": {}}`. */
  lemma ParentDerivesObjPlan()
    ensures GetSelectRelatedFields(AsBool(true), ParentFields) == Plan([PlanEntry("obj", EmptyPlan)])
  {
    assert ParentFields[1..][1..] == [FieldDecl("title", false)];
  }

  /** For `select_related()` it derives `{"thing": {}}` on `Object` and the empty plan on `Thing`. */
  lemma ObjectAndThingPlans()
    ensures GetSelectRelatedFields(AsBool(true), ObjectFields) == Plan([PlanEntry("thing", EmptyPlan)])
    ensures GetSelectRelatedFields(AsBool(true), ThingFields) == EmptyPlan
  {
    assert ObjectFields[1..][1..] == [FieldDecl("identifier", false)];
    assert ThingFields[1..][1..][1..] == [FieldDecl("email", false)];
  }

  /**
   A `values()` row has its keys in `_fields` order, so the values hook maps
   every key to its own name, keeping every key.
   */
  lemma {:induction false} ValuesHookNamesEachKey(values: Mapping, fields: seq<string>)
    requires |values| == |fields|
    requires forall k :: 0 <= k < |values| ==> values[k].0 == fields[k]
    ensures |ThingValuesHook(values, fields)| == |values|
    ensures forall k :: 0 <= k < |values| ==> ThingValuesHook(values, fields)[k] == (fields[k], Str(fields[k]))
  {
  }

  /** The values-list and flat hooks ignore the fetched values altogether. */
  lemma ThingValueHooksIgnoreValues(t1: seq<Value>, t2: seq<Value>, v1: Value, v2: Value, fields: seq<string>, field: Option<string>)
    ensures ThingValuesListHook(t1, fields) == ThingValuesListHook(t2, fields)
    ensures ThingFlatHook(v1, field) == ThingFlatHook(v2, field)
  {
  }
}

=== FILE: myapp_scenarios.dfy ===
/**
 The example application's end-to-end behaviour, one lemma per scenario: a
 saved `Thing(name="foo", age=12, email="foo@bar.com")`, an `Object` pointing
 at it and a `Parent` pointing at the `Object`, fetched through each path.
 Instance ids are the store's, not primary keys.
 */
module MyAppScenarios {
  import opened Wrappers
  import opened Entities
  import opened Mixins
  import opened MyApp
  import FetchProofs
  import TraversalProofs

  const FooThing: Record :=
    Record("Thing", map["name" := Str("foo"), "age" := Int(12), "email" := Str("foo@bar.com")], map[])

  /** `Object(thing=<instance 1>, identifier=0)`. */
  const SavedObject: Record :=
    Record("Object", map["identifier" := Int(0)], map["thing" := Some(1)])

  /** `Parent(obj=<instance 2>, title="bar")`. */
  const SavedParent: Record :=
    Record("Parent", map["title" := Str("bar")], map["obj" := Some(2)])

  /** A queryset that has not been evaluated yet. */
  const Unevaluated: QuerySetState := QuerySetState(None, map[], false, false)

  /** All three saved instances, as the store holds them when the fetch runs. */
  const Family: Store := map[1 := FooThing, 2 := SavedObject, 3 := SavedParent]

  /** A thing after its hook ran: `name`, `age` and `email` all None. */
  const RedactedAttrs: map<string, Value> := map["name" := Null, "age" := Null, "email" := Null]

  lemma ThingHookRedacts(s: Store, x: Id)
    requires x in s && s[x].attrs.Keys <= {"name", "age", "email"}
    ensures ThingHook(s, x).store[x].attrs == RedactedAttrs
  {
    var a := ThingHook(s, x).store[x].attrs;
    assert a.Keys == RedactedAttrs.Keys;
  }

  /** `Thing.objects.first()`: the fetched instance has `name`, `age`, `email` None. */
  lemma PlainFetchRedactsThing(prefetch: PrefetchStep)
    ensures var o := FetchAll(Unevaluated, QuerySet(ThingClass, AsBool(false), None), Registry,
                              RawResult(map[1 := FooThing], [Entity(1)]), prefetch);
            && o.state.resultCache == Some([Entity(1)])
            && 1 in o.state.store
            && o.state.store[1].attrs == RedactedAttrs
  {
    var qs := QuerySet(ThingClass, AsBool(false), None);
    var raw := RawResult(map[1 := FooThing], [Entity(1)]);
    FetchProofs.SingleRowFetch(Unevaluated, qs, Registry, raw, prefetch);
    var s := Unevaluated.store + raw.store;
    assert s == map[1 := FooThing];
    var o := ThingHook(s, 1);
    ThingHookRedacts(s, 1);
    assert PostFetchRow(s, Entity(1), EmptyPlan, qs, Registry) == RowOutcome(o.store, Entity(1));
  }

  /** Two saved things, as `Thing.objects.all()` would materialise them. */
  const TwoThings: Store := map[1 := FooThing, 4 := FooThing]

  /** `list(Thing.objects.all())` with two things: both come back redacted, in order. */
  lemma AllFetchRedactsEveryThing(prefetch: PrefetchStep)
    ensures var o := FetchAll(Unevaluated, QuerySet(ThingClass, AsBool(false), None), Registry,
                              RawResult(TwoThings, [Entity(1), Entity(4)]), prefetch);
            && o.state.resultCache == Some([Entity(1), Entity(4)])
            && 1 in o.state.store && 4 in o.state.store
            && o.state.store[1].attrs == RedactedAttrs
            && o.state.store[4].attrs == RedactedAttrs
  {
    var qs := QuerySet(ThingClass, AsBool(false), None);
    var rows := [Entity(1), Entity(4)];
    var s := Unevaluated.store + TwoThings;
    assert s == TwoThings;
    assert GetSelectRelatedFields(qs.selectRelated, qs.model.fields) == EmptyPlan;
    FetchProofs.PostFetchRowByRow(s, rows, EmptyPlan, qs, Registry, 0);
    assert rows[..0] == [];
    TraversalProofs.EmptyPlanChangesNothing(ThingHook(s, 1).store, 1, Registry);
    var s1 := ThingHook(s, 1).store;
    assert PostFetch(s, rows[..1], EmptyPlan, qs, Registry).store == s1;
    FetchProofs.PostFetchRowByRow(s, rows, EmptyPlan, qs, Registry, 1);
    TraversalProofs.EmptyPlanChangesNothing(ThingHook(s1, 4).store, 4, Registry);
    var s2 := ThingHook(s1, 4).store;
    assert rows[..2] == rows;
    var fetched := PostFetch(s, rows, EmptyPlan, qs, Registry);
    assert fetched.rows == rows && fetched.store == s2;
    ThingHookRedacts(s, 1);
    ThingHookRedacts(s1, 4);
  }

  /** `Thing.objects.values("name", "age").first()` is `{"name": "name", "age": "age"}`, whatever is stored. */
  lemma ValuesFetchNamesFields(name: Value, age: Value, prefetch: PrefetchStep)
    ensures var o := FetchAll(Unevaluated, QuerySet(ThingClass, AsBool(false), Some(["name", "age"])), Registry,
                              RawResult(map[], [Dict([("name", name), ("age", age)])]), prefetch);
            o.state.resultCache == Some([Dict([("name", Str("name")), ("age", Str("age"))])])
  {
    var qs := QuerySet(ThingClass, AsBool(false), Some(["name", "age"]));
    var raw := RawResult(map[], [Dict([("name", name), ("age", age)])]);
    FetchProofs.SingleRowFetch(Unevaluated, qs, Registry, raw, prefetch);
    var r := ThingValuesHook([("name", name), ("age", age)], ["name", "age"]);
    assert r == [("name", Str("name")), ("age", Str("age"))];
  }

  /** `Thing.objects.values_list("name", "age").first()` is `("name", "age")`. */
  lemma ValuesListFetchNamesFields(name: Value, age: Value, prefetch: PrefetchStep)
    ensures var o := FetchAll(Unevaluated, QuerySet(ThingClass, AsBool(false), Some(["name", "age"])), Registry,
                              RawResult(map[], [Tuple([name, age])]), prefetch);
            o.state.resultCache == Some([Tuple([Str("name"), Str("age")])])
  {
    var qs := QuerySet(ThingClass, AsBool(false), Some(["name", "age"]));
    var raw := RawResult(map[], [Tuple([name, age])]);
    FetchProofs.SingleRowFetch(Unevaluated, qs, Registry, raw, prefetch);
    assert Names(["name", "age"]) == [Str("name"), Str("age")];
  }

  /** `Thing.objects.values_list("name", flat=True).first()` is `"name"`. */
  lemma FlatFetchNamesField(name: Value, prefetch: PrefetchStep)
    ensures var o := FetchAll(Unevaluated, QuerySet(ThingClass, AsBool(false), Some(["name"])), Registry,
                              RawResult(map[], [Scalar(name)]), prefetch);
            o.state.resultCache == Some([Scalar(Str("name"))])
  {
    var qs := QuerySet(ThingClass, AsBool(false), Some(["name"]));
    var raw := RawResult(map[], [Scalar(name)]);
    FetchProofs.SingleRowFetch(Unevaluated, qs, Registry, raw, prefetch);
  }

  /** `Object.objects.select_related("thing").first()`: both the object and its thing are redacted. */
  lemma SelectRelatedRedactsJoinedThing(prefetch: PrefetchStep)
    ensures var plan := Plan([PlanEntry("thing", EmptyPlan)]);
            var o := FetchAll(Unevaluated, QuerySet(ObjectClass, AsDict(plan), None), Registry,
                              RawResult(map[1 := FooThing, 2 := SavedObject], [Entity(2)]), prefetch);
            && o.state.resultCache == Some([Entity(2)])
            && 1 in o.state.store && 2 in o.state.store
            && "identifier" in o.state.store[2].attrs && o.state.store[2].attrs["identifier"] == Null
            && o.state.store[2].rels == SavedObject.rels
            && o.state.store[1].attrs == RedactedAttrs
  {
    var plan := Plan([PlanEntry("thing", EmptyPlan)]);
    var qs := QuerySet(ObjectClass, AsDict(plan), None);
    var raw := RawResult(map[1 := FooThing, 2 := SavedObject], [Entity(2)]);
    var s0 := Unevaluated.store + raw.store;
    assert s0 == raw.store;
    FetchProofs.SingleInstanceFetch(Unevaluated, qs, Registry, raw, prefetch, 2);
    RegistryInPlace();
    var s1 := ObjectHook(s0, 2).store;
    assert Related(s1, 2, "thing") == Some(1);
    TraversalProofs.OneRelationStep(s1, 2, "thing", EmptyPlan, 1, Registry);
    var s2 := ThingHook(s1, 1).store;
    assert TraversalProofs.HookOnly(s1, 1, Registry) == s2;
    ThingHookRedacts(s1, 1);
  }

  /**
   `Parent.objects.select_related().first()`: the derived plan is `{"obj": {}}`,
   so the parent and its object are redacted while the thing below is left as
   stored (it is transformed only when fetched by a query of its own).
   */
  lemma SelectRelatedAllStopsAtFirstLevel(prefetch: PrefetchStep)
    ensures var o := FetchAll(Unevaluated, QuerySet(ParentClass, AsBool(true), None), Registry,
                              RawResult(Family, [Entity(3)]), prefetch);
            && o.state.resultCache == Some([Entity(3)])
            && 1 in o.state.store && 2 in o.state.store && 3 in o.state.store
            && "title" in o.state.store[3].attrs && o.state.store[3].attrs["title"] == Null
            && o.state.store[3].rels == SavedParent.rels
            && "identifier" in o.state.store[2].attrs && o.state.store[2].attrs["identifier"] == Null
            && o.state.store[1] == FooThing
  {
    var qs := QuerySet(ParentClass, AsBool(true), None);
    var raw := RawResult(Family, [Entity(3)]);
    assert Unevaluated.store + raw.store == Family;
    ParentDerivesObjPlan();
    FetchProofs.SingleInstanceFetch(Unevaluated, qs, Registry, raw, prefetch, 3);
    RegistryInPlace();
    var s1 := ParentHook(Family, 3).store;
    assert Related(s1, 3, "obj") == Some(2);
    TraversalProofs.OneRelationStep(s1, 3, "obj", EmptyPlan, 2, Registry);
    var s2 := ObjectHook(s1, 2).store;
    assert TraversalProofs.HookOnly(s1, 2, Registry) == s2;
  }

  /** The plan of `select_related("obj__thing")`. */
  const ObjThingPlan: Plan := Plan([PlanEntry("obj", Plan([PlanEntry("thing", EmptyPlan)]))])

  /** The traversal part of `select_related("obj__thing")`, after the parent's own hook. */
  lemma ObjThingTraversalRedacts()
    ensures var t := RelatedPostFetch(ParentHook(Family, 3).store, 3, ObjThingPlan, Registry);
            && 1 in t && 2 in t && 3 in t
            && t[3] == ParentHook(Family, 3).store[3]
            && "identifier" in t[2].attrs && t[2].attrs["identifier"] == Null
            && t[1].attrs == RedactedAttrs
  {
    var inner := Plan([PlanEntry("thing", EmptyPlan)]);
    RegistryInPlace();
    var s1 := ParentHook(Family, 3).store;
    assert Related(s1, 3, "obj") == Some(2);
    TraversalProofs.OneRelationStep(s1, 3, "obj", inner, 2, Registry);
    var s2 := ObjectHook(s1, 2).store;
    assert TraversalProofs.HookOnly(s1, 2, Registry) == s2;
    assert Related(s2, 2, "thing") == Some(1);
    TraversalProofs.OneRelationStep(s2, 2, "thing", EmptyPlan, 1, Registry);
    var s3 := ThingHook(s2, 1).store;
    assert TraversalProofs.HookOnly(s2, 1, Registry) == s3;
    ThingHookRedacts(s2, 1);
  }

  /** `Parent.objects.select_related("obj__thing").first()`: all three instances are redacted. */
  lemma SelectRelatedNestedRedactsAll(prefetch: PrefetchStep)
    ensures var o := FetchAll(Unevaluated, QuerySet(ParentClass, AsDict(ObjThingPlan), None), Registry,
                              RawResult(Family, [Entity(3)]), prefetch);
            && o.state.resultCache == Some([Entity(3)])
            && 1 in o.state.store && 2 in o.state.store && 3 in o.state.store
            && "title" in o.state.store[3].attrs && o.state.store[3].attrs["title"] == Null
            && "identifier" in o.state.store[2].attrs && o.state.store[2].attrs["identifier"] == Null
            && o.state.store[1].attrs == RedactedAttrs
  {
    var qs := QuerySet(ParentClass, AsDict(ObjThingPlan), None);
    var raw := RawResult(Family, [Entity(3)]);
    assert Unevaluated.store + raw.store == Family;
    FetchProofs.SingleInstanceFetch(Unevaluated, qs, Registry, raw, prefetch, 3);
    ObjThingTraversalRedacts();
  }

  /** `Parent(obj=None)` through `select_related("obj__thing")`: the title is redacted and `obj` stays None. */
  lemma SelectRelatedNullRelation(prefetch: PrefetchStep)
    ensures var plan := ObjThingPlan;
            var orphan := Record("Parent", map["title" := Str("bar")], map["obj" := None]);
            var o := FetchAll(Unevaluated, QuerySet(ParentClass, AsDict(plan), None), Registry,
                              RawResult(map[3 := orphan], [Entity(3)]), prefetch);
            && o.state.resultCache == Some([Entity(3)])
            && 3 in o.state.store
            && "title" in o.state.store[3].attrs && o.state.store[3].attrs["title"] == Null
            && o.state.store[3].rels == map["obj" := None]
  {
    var plan := ObjThingPlan;
    var orphan := Record("Parent", map["title" := Str("bar")], map["obj" := None]);
    var qs := QuerySet(ParentClass, AsDict(plan), None);
    var raw := RawResult(map[3 := orphan], [Entity(3)]);
    FetchProofs.SingleRowFetch(Unevaluated, qs, Registry, raw, prefetch);
    var s0 := Unevaluated.store + raw.store;
    assert s0 == map[3 := orphan];
    var s1 := ParentHook(s0, 3).store;
    assert Related(s1, 3, "obj") == None;
    TraversalProofs.NullRelationsSkipped(s1, 3, plan, 0, Registry);
    assert PostFetchRow(s0, Entity(3), plan, qs, Registry) == RowOutcome(s1, Entity(3));
  }

  // ------------------------------------------- a hook that replaces its instance

  /**
   An `Object` hook that returns a fresh copy (instance 10) of the instance it
   is given, whose `thing` is another, unredacted instance (11).
   */
  function ReplacingObjectHook(s: Store, y: Id): HookOutcome {
    if y in s then HookOutcome(s[10 := s[y].(rels := s[y].rels["thing" := Some(11)])][11 := FooThing], 10)
    else HookOutcome(s, y)
  }

  function ReplacingRegistry(m: ModelName): Option<EntityHook> {
    if m == "Object" then Some(ReplacingObjectHook) else Registry(m)
  }

  /** The parent after the replacing hook ran on its `obj`: the slot holds the replacement. */
  function ReplacedFamily(): Store {
    SetRelation(ReplacingObjectHook(Family, 2).store, 3, "obj", 10)
  }

  /** The nested walk under the replaced `Object`: it visits the detached thing 1 and redacts it. */
  lemma DetachedWalkRedactsOldThing()
    ensures var t := RelatedPostFetch(ReplacedFamily(), 2, Plan([PlanEntry("thing", EmptyPlan)]), ReplacingRegistry);
            && 1 in t && 3 in t && 10 in t && 11 in t
            && t[3].rels == map["obj" := Some(10)]
            && t[10].rels == map["thing" := Some(11)]
            && t[11] == FooThing
            && t[1].attrs == RedactedAttrs
  {
    var inner := Plan([PlanEntry("thing", EmptyPlan)]);
    var s1 := ReplacedFamily();
    assert s1[10].rels == map["thing" := Some(11)];
    assert Related(s1, 2, "thing") == Some(1);
    var s2 := ThingHook(s1, 1).store;
    ThingHookRedacts(s1, 1);
    SetRelationSame(s2, 2, "thing", 1);
    assert ApplyRelatedHook(s1, 2, "thing", 1, ReplacingRegistry) == s2;
    assert RelatedPostFetchFrom(s1, 2, inner, 0, ReplacingRegistry) == RelatedPostFetchFrom(s2, 2, inner, 1, ReplacingRegistry);
  }

  /**
   With a replacing hook, the parent's slot receives the replacement, but the
   nested plan is walked below the replaced instance: the thing now reachable
   from the parent is left unredacted, while the detached one is redacted.
   */
  lemma ReplacementDetachesNestedHooks()
    ensures var t := RelatedPostFetch(Family, 3, ObjThingPlan, ReplacingRegistry);
            && 1 in t && 3 in t && 10 in t && 11 in t
            && t[3].rels == map["obj" := Some(10)]
            && t[10].rels == map["thing" := Some(11)]
            && t[11] == FooThing
            && t[1].attrs == RedactedAttrs
  {
    var inner := Plan([PlanEntry("thing", EmptyPlan)]);
    assert Related(Family, 3, "obj") == Some(2);
    var s1 := ReplacedFamily();
    assert ApplyRelatedHook(Family, 3, "obj", 2, ReplacingRegistry) == s1;
    var s2 := RelatedPostFetch(s1, 2, inner, ReplacingRegistry);
    DetachedWalkRedactsOldThing();
    assert RelatedPostFetchFrom(Family, 3, ObjThingPlan, 0, ReplacingRegistry)
        == RelatedPostFetchFrom(s2, 3, ObjThingPlan, 1, ReplacingRegistry);
  }
}

=== FILE: traversal_proofs.dfy ===
/**
 Properties of the related-entity traversal and of the row loop.

 The traversal is compared with an independent reading of the join plan: the
 list of related instances it visits (`Trace`), read off the instances BEFORE
 any hook ran, and the hooks applied one after the other along that list
 (`ApplyHooks`). For hooks that work in place the two agree, which gives the
 frame and the depth bound; the null-relation, no-hook and pre-hook-recursion
 facts hold for every hook.
 */
module TraversalProofs {
  import opened Wrappers
  import opened Entities
  import opened Mixins

  // ------------------------------------------------------ reference semantics

  /** The related instances visited below `x`, in visiting order. */
  function Trace(s: Store, x: Id, plan: Plan): seq<Id> {
    TraceFrom(s, x, plan, 0)
  }

  /** `Trace` from the `i`-th plan entry on: each non-null relation, then what lies below it. */
  function TraceFrom(s: Store, x: Id, plan: Plan, i: nat): seq<Id>
    requires i <= |plan.entries|
    decreases plan, |plan.entries| - i
  {
    if i == |plan.entries| then []
    else
      var e := plan.entries[i];
      var here :=
        match Related(s, x, e.field)
        case None => []
        case Some(y) => [y] + TraceFrom(s, y, e.sub, 0);
      here + TraceFrom(s, x, plan, i + 1)
  }

  /** The number of relation edges in a plan, at every depth. */
  function PlanSize(plan: Plan): nat {
    PlanSizeFrom(plan, 0)
  }

  function PlanSizeFrom(plan: Plan, i: nat): nat
    requires i <= |plan.entries|
    decreases plan, |plan.entries| - i
  {
    if i == |plan.entries| then 0
    else 1 + PlanSizeFrom(plan.entries[i].sub, 0) + PlanSizeFrom(plan, i + 1)
  }

  /** Run the hook of `y`'s class on `y`, if the class has one. */
  function HookOnly(s: Store, y: Id, registry: HookRegistry): Store {
    if y in s && registry(s[y].model).Some? then registry(s[y].model).value(s, y).store else s
  }

  /** The hooks of the instances `ids`, run in that order. */
  function ApplyHooks(s: Store, ids: seq<Id>, registry: HookRegistry): Store
    decreases |ids|
  {
    if ids == [] then s else ApplyHooks(HookOnly(s, ids[0], registry), ids[1..], registry)
  }

  /** Same instances, same classes, same relation slots: only plain attributes may differ. */
  ghost predicate SameLinks(s: Store, t: Store) {
    && s.Keys == t.Keys
    && forall z :: z in s ==> t[z].model == s[z].model && t[z].rels == s[z].rels
  }

  // ------------------------------------------------------------ helper facts

  lemma HookOnlyInPlace(s: Store, y: Id, registry: HookRegistry)
    requires AllInPlace(registry)
    ensures SameLinks(s, HookOnly(s, y, registry))
    ensures forall z :: z in s && z != y ==> HookOnly(s, y, registry)[z] == s[z]
  {
    if y in s && registry(s[y].model).Some? {
      var h := registry(s[y].model).value;
      assert InPlace(h);
      assert InPlaceOutcome(s, y, h(s, y));
    }
  }

  lemma {:induction false} ApplyHooksInPlace(s: Store, ids: seq<Id>, registry: HookRegistry)
    requires AllInPlace(registry)
    ensures SameLinks(s, ApplyHooks(s, ids, registry))
    ensures forall z :: z in s && z !in ids ==> ApplyHooks(s, ids, registry)[z] == s[z]
    decreases |ids|
  {
    if ids != [] {
      var s1 := HookOnly(s, ids[0], registry);
      HookOnlyInPlace(s, ids[0], registry);
      ApplyHooksInPlace(s1, ids[1..], registry);
      forall z | z in s && z !in ids
        ensures ApplyHooks(s, ids, registry)[z] == s[z]
      {
        assert z != ids[0] && z !in ids[1..];
      }
    }
  }

  lemma {:induction false} ApplyHooksAppend(s: Store, a: seq<Id>, b: seq<Id>, registry: HookRegistry)
    ensures ApplyHooks(s, a + b, registry) == ApplyHooks(ApplyHooks(s, a, registry), b, registry)
    decreases |a|
  {
    if a == [] {
      assert a + b == b;
    } else {
      assert (a + b)[0] == a[0];
      assert (a + b)[1..] == a[1..] + b;
      ApplyHooksAppend(HookOnly(s, a[0], registry), a[1..], b, registry);
    }
  }

  lemma RelatedSameLinks(s: Store, t: Store, x: Id, f: string)
    requires SameLinks(s, t)
    ensures Related(s, x, f) == Related(t, x, f)
  {
  }

  lemma {:induction false} TraceSameLinks(s: Store, t: Store, x: Id, plan: Plan, i: nat)
    requires SameLinks(s, t)
    requires i <= |plan.entries|
    ensures TraceFrom(s, x, plan, i) == TraceFrom(t, x, plan, i)
    decreases plan, |plan.entries| - i
  {
    if i < |plan.entries| {
      var e := plan.entries[i];
      RelatedSameLinks(s, t, x, e.field);
      match Related(s, x, e.field) {
        case None =>
        case Some(y) => TraceSameLinks(s, t, y, e.sub, 0);
      }
      TraceSameLinks(s, t, x, plan, i + 1);
    }
  }

  /** With in-place hooks, one visited relation amounts to running the related instance's hook. */
  lemma RelatedHookInPlace(s: Store, x: Id, f: string, y: Id, registry: HookRegistry)
    requires AllInPlace(registry)
    requires Related(s, x, f) == Some(y)
    ensures ApplyRelatedHook(s, x, f, y, registry) == HookOnly(s, y, registry)
  {
    if registry(s[y].model).Some? {
      var h := registry(s[y].model).value;
      assert InPlace(h);
      var o := h(s, y);
      assert InPlaceOutcome(s, y, o);
      assert Related(o.store, x, f) == Some(y);
      SetRelationSame(o.store, x, f, y);
    }
  }

  // ------------------------------------------------------------ the traversal

  /**
   For hooks that work in place, `_related_post_fetch` is exactly: run the hooks
   of the instances reached along plan edges, in pre-order, once per visit.
   */
  lemma {:induction false} TraversalIsTrace(s: Store, x: Id, plan: Plan, i: nat, registry: HookRegistry)
    requires AllInPlace(registry)
    requires i <= |plan.entries|
    ensures RelatedPostFetchFrom(s, x, plan, i, registry) == ApplyHooks(s, TraceFrom(s, x, plan, i), registry)
    decreases plan, |plan.entries| - i
  {
    if i < |plan.entries| {
      var e := plan.entries[i];
      var here: seq<Id>;
      var s': Store;
      match Related(s, x, e.field) {
        case None =>
          here := [];
          s' := s;
        case Some(y) =>
          var hooked := ApplyRelatedHook(s, x, e.field, y, registry);
          RelatedHookInPlace(s, x, e.field, y, registry);
          HookOnlyInPlace(s, y, registry);
          TraceSameLinks(s, hooked, y, e.sub, 0);
          if e.sub.entries != [] {
            TraversalIsTrace(hooked, y, e.sub, 0, registry);
            s' := RelatedPostFetchFrom(hooked, y, e.sub, 0, registry);
          } else {
            s' := hooked;
          }
          here := [y] + TraceFrom(s, y, e.sub, 0);
          assert here[0] == y && here[1..] == TraceFrom(s, y, e.sub, 0);
          assert s' == ApplyHooks(s, here, registry);
      }
      assert TraceFrom(s, x, plan, i) == here + TraceFrom(s, x, plan, i + 1);
      assert RelatedPostFetchFrom(s, x, plan, i, registry) == RelatedPostFetchFrom(s', x, plan, i + 1, registry);
      ApplyHooksInPlace(s, here, registry);
      TraversalIsTrace(s', x, plan, i + 1, registry);
      TraceSameLinks(s, s', x, plan, i + 1);
      ApplyHooksAppend(s, here, TraceFrom(s, x, plan, i + 1), registry);
    }
  }

  /**
   Frame: with in-place hooks the traversal rewrites no relation slot (each slot
   keeps its instance), and every instance it does not visit is unchanged.
   */
  lemma TraversalFrame(s: Store, x: Id, plan: Plan, registry: HookRegistry)
    requires AllInPlace(registry)
    ensures SameLinks(s, RelatedPostFetch(s, x, plan, registry))
    ensures forall z :: z in s && z !in Trace(s, x, plan) ==> RelatedPostFetch(s, x, plan, registry)[z] == s[z]
  {
    TraversalIsTrace(s, x, plan, 0, registry);
    ApplyHooksInPlace(s, Trace(s, x, plan), registry);
  }

  /** The trace follows plan edges only: it visits at most one instance per edge of the plan. */
  lemma {:induction false} TraceBounded(s: Store, x: Id, plan: Plan, i: nat)
    requires i <= |plan.entries|
    ensures |TraceFrom(s, x, plan, i)| <= PlanSizeFrom(plan, i)
    decreases plan, |plan.entries| - i
  {
    if i < |plan.entries| {
      var e := plan.entries[i];
      match Related(s, x, e.field) {
        case None =>
        case Some(y) => TraceBounded(s, y, e.sub, 0);
      }
      TraceBounded(s, x, plan, i + 1);
    }
  }

  /**
   Coverage: every non-null relation named by the plan is visited, and so is
   everything the nested plan reaches below it.
   */
  lemma {:induction false} TraceCovers(s: Store, x: Id, plan: Plan, i: nat, j: nat, y: Id)
    requires i <= j < |plan.entries|
    requires Related(s, x, plan.entries[j].field) == Some(y)
    ensures y in TraceFrom(s, x, plan, i)
    ensures forall z :: z in TraceFrom(s, y, plan.entries[j].sub, 0) ==> z in TraceFrom(s, x, plan, i)
    decreases |plan.entries| - i
  {
    var e := plan.entries[i];
    var here :=
      match Related(s, x, e.field)
      case None => []
      case Some(w) => [w] + TraceFrom(s, w, e.sub, 0);
    assert TraceFrom(s, x, plan, i) == here + TraceFrom(s, x, plan, i + 1);
    if i < j {
      TraceCovers(s, x, plan, i + 1, j, y);
    } else {
      assert here == [y] + TraceFrom(s, y, plan.entries[j].sub, 0);
    }
  }

  /**
   Depth boundary: with the one-level plan `{f: {}}` only the instance in slot
   `f` is visited; nothing below it (nor anything else) is changed.
   */
  lemma OneLevelPlanStopsAtRelated(s: Store, x: Id, f: string, registry: HookRegistry)
    requires AllInPlace(registry)
    ensures RelatedPostFetch(s, x, Plan([PlanEntry(f, EmptyPlan)]), registry).Keys == s.Keys
    ensures forall z :: z in s && Related(s, x, f) != Some(z) ==>
      RelatedPostFetch(s, x, Plan([PlanEntry(f, EmptyPlan)]), registry)[z] == s[z]
  {
    var plan := Plan([PlanEntry(f, EmptyPlan)]);
    TraversalFrame(s, x, plan, registry);
    assert TraceFrom(s, x, plan, 1) == [];
    match Related(s, x, f) {
      case None => assert Trace(s, x, plan) == [];
      case Some(y) =>
        assert TraceFrom(s, y, EmptyPlan, 0) == [];
        assert Trace(s, x, plan) == [y];
    }
  }

  /**
   With in-place hooks, a plan of one relation runs the related instance's hook
   and then walks the nested plan below that instance.
   */
  lemma OneRelationStep(s: Store, x: Id, f: string, sub: Plan, y: Id, registry: HookRegistry)
    requires AllInPlace(registry)
    requires Related(s, x, f) == Some(y)
    ensures RelatedPostFetch(s, x, Plan([PlanEntry(f, sub)]), registry)
         == RelatedPostFetch(HookOnly(s, y, registry), y, sub, registry)
  {
    var plan := Plan([PlanEntry(f, sub)]);
    RelatedHookInPlace(s, x, f, y, registry);
    var hooked := HookOnly(s, y, registry);
    var below := RelatedPostFetchFrom(hooked, y, sub, 0, registry);
    assert sub.entries == [] ==> below == hooked;
    assert RelatedPostFetchFrom(s, x, plan, 0, registry) == RelatedPostFetchFrom(below, x, plan, 1, registry);
  }

  // ------------------------------------------------ facts for every kind of hook

  /**
   Null safety, one relation at a time: an entry whose relation is null on `x`,
   in the instances as the walk reaches it, is skipped with no hook run and no
   descent, whatever the hooks are.
   */
  lemma NullEntrySkipped(s: Store, x: Id, plan: Plan, i: nat, registry: HookRegistry)
    requires i < |plan.entries|
    requires Related(s, x, plan.entries[i].field).None?
    ensures RelatedPostFetchFrom(s, x, plan, i, registry) == RelatedPostFetchFrom(s, x, plan, i + 1, registry)
  {
  }

  /** Null safety: when every relation the plan names is null on `x`, nothing changes and no hook runs. */
  lemma {:induction false} NullRelationsSkipped(s: Store, x: Id, plan: Plan, i: nat, registry: HookRegistry)
    requires i <= |plan.entries|
    requires forall e :: e in plan.entries ==> Related(s, x, e.field).None?
    ensures RelatedPostFetchFrom(s, x, plan, i, registry) == s
    decreases |plan.entries| - i
  {
    if i < |plan.entries| {
      assert plan.entries[i] in plan.entries;
      NullEntrySkipped(s, x, plan, i, registry);
      NullRelationsSkipped(s, x, plan, i + 1, registry);
    }
  }

  /** The `if nested_select_related` guard only saves a call: the empty plan changes nothing. */
  lemma EmptyPlanChangesNothing(s: Store, x: Id, registry: HookRegistry)
    ensures RelatedPostFetch(s, x, EmptyPlan, registry) == s
  {
  }

  /**
   A related instance whose class has no entry hook: its slot is not written,
   yet the traversal still goes down into it with the nested plan.
   */
  lemma NoHookStillDescends(s: Store, x: Id, f: string, sub: Plan, y: Id, registry: HookRegistry)
    requires Related(s, x, f) == Some(y)
    requires registry(s[y].model).None?
    ensures RelatedPostFetch(s, x, Plan([PlanEntry(f, sub)]), registry) == RelatedPostFetch(s, y, sub, registry)
  {
    var plan := Plan([PlanEntry(f, sub)]);
    assert ApplyRelatedHook(s, x, f, y, registry) == s;
    var below := RelatedPostFetchFrom(s, y, sub, 0, registry);
    assert sub.entries == [] ==> below == s;
    assert RelatedPostFetchFrom(s, x, plan, 0, registry) == RelatedPostFetchFrom(below, x, plan, 1, registry);
  }

  /**
   The slot receives whatever the hook returned, but the traversal goes on below
   the instance the slot held before: the pre-hook instance `y`.
   */
  lemma RecursesIntoPreHookInstance(s: Store, x: Id, f: string, sub: Plan, y: Id, registry: HookRegistry, h: EntityHook)
    requires Related(s, x, f) == Some(y)
    requires registry(s[y].model) == Some(h)
    requires sub.entries != []
    ensures RelatedPostFetch(s, x, Plan([PlanEntry(f, sub)]), registry)
         == RelatedPostFetch(SetRelation(h(s, y).store, x, f, h(s, y).result), y, sub, registry)
  {
    var plan := Plan([PlanEntry(f, sub)]);
    var hooked := SetRelation(h(s, y).store, x, f, h(s, y).result);
    assert ApplyRelatedHook(s, x, f, y, registry) == hooked;
    var below := RelatedPostFetchFrom(hooked, y, sub, 0, registry);
    assert RelatedPostFetchFrom(s, x, plan, 0, registry) == RelatedPostFetchFrom(below, x, plan, 1, registry);
  }

  /** With the identity hooks of `PostFetchModelMixin`, the traversal changes nothing. */
  lemma {:induction false} IdentityTraversal(s: Store, x: Id, plan: Plan, i: nat, registry: HookRegistry)
    requires IdentityRegistry(registry)
    requires i <= |plan.entries|
    ensures RelatedPostFetchFrom(s, x, plan, i, registry) == s
    decreases plan, |plan.entries| - i
  {
    if i < |plan.entries| {
      var e := plan.entries[i];
      match Related(s, x, e.field) {
        case None =>
        case Some(y) =>
          if registry(s[y].model).Some? {
            assert registry(s[y].model).value(s, y) == HookOutcome(s, y);
            SetRelationSame(s, x, e.field, y);
          }
          assert ApplyRelatedHook(s, x, e.field, y, registry) == s;
          IdentityTraversal(s, y, e.sub, 0, registry);
      }
      IdentityTraversal(s, x, plan, i + 1, registry);
    }
  }

  // ---------------------------------------------------------------- the rows

  /** With the identity hooks everywhere, `_post_fetch` returns its rows and the instances as they were. */
  lemma {:induction false} IdentityPostFetch(s: Store, rows: seq<Row>, plan: Plan, qs: QuerySet, registry: HookRegistry)
    requires IdentityHooks(qs.model.hooks)
    requires IdentityRegistry(registry)
    requires ScalarRowsHaveField(rows, qs.fields)
    ensures PostFetch(s, rows, plan, qs, registry) == Fetched(s, rows)
    decreases |rows|
  {
    if rows != [] {
      var hooks := qs.model.hooks;
      var head := PostFetchRow(s, rows[0], plan, qs, registry);
      match rows[0] {
        case Dict(m) => assert hooks.values(m, FieldNames(qs.fields)) == m;
        case Tuple(t) => assert hooks.valuesList(t, FieldNames(qs.fields)) == t;
        case Scalar(v) => assert hooks.flat(v, FlatField(qs.fields)) == v;
        case Entity(x) =>
          assert hooks.entity(s, x) == HookOutcome(s, x);
          IdentityTraversal(s, x, plan, 0, registry);
      }
      assert head == RowOutcome(s, rows[0]);
      IdentityPostFetch(s, rows[1..], plan, qs, registry);
      assert [rows[0]] + rows[1..] == rows;
    }
  }

  /** One row under in-place hooks: an instance row comes back as itself and no link changes. */
  lemma InPlaceRowKeepsLinks(s: Store, row: Row, plan: Plan, qs: QuerySet, registry: HookRegistry)
    requires InPlace(qs.model.hooks.entity)
    requires AllInPlace(registry)
    requires row.Scalar? ==> HasFlatField(qs.fields)
    requires row.Entity? ==> row.id in s
    ensures SameLinks(s, PostFetchRow(s, row, plan, qs, registry).store)
    ensures row.Entity? ==> PostFetchRow(s, row, plan, qs, registry).row == row
  {
    if row.Entity? {
      var x := row.id;
      var o := qs.model.hooks.entity(s, x);
      assert InPlaceOutcome(s, x, o);
      TraversalFrame(o.store, x, plan, registry);
    }
  }

  /**
   With in-place hooks, every instance row comes back as the same instance,
   and no relation slot of any instance is rewritten.
   */
  lemma {:induction false} InPlacePostFetch(s: Store, rows: seq<Row>, plan: Plan, qs: QuerySet, registry: HookRegistry)
    requires InPlace(qs.model.hooks.entity)
    requires AllInPlace(registry)
    requires ScalarRowsHaveField(rows, qs.fields)
    requires forall r :: r in rows && r.Entity? ==> r.id in s
    ensures SameLinks(s, PostFetch(s, rows, plan, qs, registry).store)
    ensures forall i :: 0 <= i < |rows| && rows[i].Entity? ==> PostFetch(s, rows, plan, qs, registry).rows[i] == rows[i]
    decreases |rows|
  {
    if rows != [] {
      var head := PostFetchRow(s, rows[0], plan, qs, registry);
      InPlaceRowKeepsLinks(s, rows[0], plan, qs, registry);
      InPlacePostFetch(head.store, rows[1..], plan, qs, registry);
      var r := PostFetch(s, rows, plan, qs, registry);
      forall i | 0 <= i < |rows| && rows[i].Entity?
        ensures r.rows[i] == rows[i]
      {
        if i > 0 {
          assert rows[i] == rows[1..][i - 1];
        }
      }
    }
  }
}

=== FILE: wrappers.dfy ===
/** The optional-value datatype used for nullable relation slots and absent attributes. */
module Wrappers {

  /** `None` plays the part of Python's `None` (or of an attribute that is not there). */
  datatype Option<+T> = None | Some(value: T)
}
